=== FILE: README.md ===
# SOCKSForce, modelled in Dafny

SOCKSForce is a forwarder that listens on configured local ports. It accepts
TCP connections and relays each one through a SOCKS5 server. A route's
destination can be fixed in the configuration. It can also be read from the
client's own first bytes: the HTTP `Host` header, or the TLS Server Name
Indication. The bytes the forwarder reads to find the destination are replayed
to the upstream before the live stream.

This project models the core of that program and proves properties about it.

- `wrappers.dfy` (`Wrappers`): `Option` and `Result`.
- `gostrings.dfy` (`GoStrings`): Go's `strings.TrimSpace` and `strings.ToLower`.
  `ToLower` covers ASCII letters only.
- `gonet.dfy` (`GoNet`): Go's `net.SplitHostPort` and `net.JoinHostPort`, with
  their error cases.
- `destination.go` → `destination.dfy` (`Destination`):
  - `setPort`;
  - the three `GetAddr` variants (static, HTTP Host header, TLS SNI).
  The HTTP parser and the TLS handshake are library code, so their outcome
  (`Sniffed`) is an input.
- `config.go` → `config.dfy` (`Config`): `parseConfig` after the file has been
  decoded.
  - The loop is a method, `ParseConfig`. It is proved against the functions
    `RouteFor`, `RouteOutcomes`, `BuildRoutes` and `ParseResult`.
  - Its body is split into `ApplyDefaults`, `BuildRoute`, `ChooseMode` and
    `BuildDestination`.
- `netconn.dfy` (`NetConn`): a TCP connection, as a class `Conn`.
  - The peer's side is a fixed script: the bytes still to arrive and how the
    stream ends.
  - The local side is the bytes written so far and the shut-down flags.
  - `Copy` models `io.Copy` with its 32 KiB buffer.
- `roconn/roconn.go` → `roconn.dfy` (`Roconn`): the class `RoConn`.
  - Reads go through to the wrapped connection and are recorded in `Buf`.
  - Writes, `Close` and the deadline setters never reach the connection.
- `main.go` → `proxy.dfy` (`Proxy`):
  - `doProxying`: the dial outcome, then both copy directions, `CloseWrite` and
    the upstream `Close`.
  - `handleConnection`: resolve through a `RoConn`, replay the recorded prefix,
    then relay.
  - The proxy timer and the deferred close, as a state machine. The proof shows
    the client connection is closed exactly once.

## Model

| member | source | states |
|---|---|---|
| Roconn.RoConn.constructor | main.go:86-88 | A fresh wrapper holds the connection, an empty `Buf` and no chunks, and its invariant holds. |
| Roconn.RoConn.Read | roconn/roconn.go:18-24 | The wrapped connection's read passes through unchanged: same count, same error, same bytes. `Buf` grows by exactly the bytes delivered, and only when at least one was delivered. `Valid` is kept, so `Buf` plus the unread input is always the original stream. |
| Roconn.RoConn.Write | roconn/roconn.go:25-27 | Writes nothing and reports `io.ErrClosedPipe`. It touches no state. |
| Roconn.RoConn.Close | roconn/roconn.go:28-30 | Reports no error and leaves the wrapped connection open. |
| Roconn.RoConn.SetDeadline | roconn/roconn.go:31-33 | Reports no error and changes nothing. |
| Roconn.RoConn.SetReadDeadline | roconn/roconn.go:34-36 | Reports no error and changes nothing. |
| Roconn.RoConn.SetWriteDeadline | roconn/roconn.go:37-39 | Reports no error and changes nothing. |
| Destination.SetPort | destination.go:91-98 | An address that already splits keeps its host and port. An address that does not split is joined whole with the default port, as `JoinHostPort(address, defaultPort)`. When it has no brackets and the default port has no colons or brackets, host and port can be split back out. A plain host `h` becomes `h:port`. |
| Destination.SetPortBracketedWithoutPort | destination.go:91-98 | A bracketed IPv6 literal without a port, `[::1]`, does not split (missing port). It is therefore bracketed again, giving `[[::1]]:80`, which does not split either. |
| Destination.SetPortIdempotent | destination.go:91-98 | For an address that already splits, or one without brackets when the default port has no colon or bracket, applying setPort to its own result changes nothing, whatever the second default port. A bracketed literal without a port, such as `[::1]`, lies outside this domain: see `SetPortBracketedWithoutPort`. |
| Destination.SetPortKeepsExplicitPort | destination.go:91-98 | `host:port` is returned unchanged, whatever the default port. |
| Destination.StaticGetAddr | destination.go:22-24 | The configured address, whatever the client sends. |
| Destination.HostHeaderGetAddr | destination.go:34-49 | Corrected order of checks. A request that does not parse fails with "failed to read host header", and only such a request does. A trimmed empty Host fails with "empty host header", and only such a Host does. A parsed request with a non-empty trimmed Host always succeeds, with `setPort(TrimSpace(Host), listenPort)`; a plain host `h` becomes `h:listenPort`. |
| Destination.HostHeaderGetAddrAsWritten | destination.go:34-49 | As written, every request that does not parse dereferences a nil request. Every other request gives the same result as the corrected function. |
| Destination.HostHeaderErrorBranchUnreachable | destination.go:35-39 | As written, the "failed to read host header" result is never returned, and a parse failure panics. |
| Destination.SniGetAddr | destination.go:59-85 | If the ClientHello hook never ran, the result is "failed to read TLS SNI", and only then. A trimmed empty server name gives "empty TLS SNI host name", and only that. A captured, non-empty trimmed name always succeeds, with `setPort(TrimSpace(name), listenPort)`; a plain name `h` becomes `h:listenPort`. |
| Destination.SniIgnoresHandshakeError | destination.go:62-71 | The handshake's own error never changes the result. |
| Destination.GetAddr | destination.go:13-16 | Dispatch on the variant. A static route always succeeds with its address. An HTTP Host route gives exactly `HostHeaderGetAddr`, and a TLS SNI route exactly `SniGetAddr`. Each sniffing route fails only with its own two errors. |
| Destination.ResolvedAddressStable | destination.go:43 | When the route's listen port has no colon or bracket, a sniffed address with a bracket-free host is a fixed point of setPort, whatever the second default port. |
| GoStrings.TrimSpace | destination.go:36 | No white space is left at either edge. The result is empty exactly when the input is all white space. |
| GoStrings.TrimSpaceCutsEdges | destination.go:36 | The result is a slice of the input with only white space before and after it. With TrimSpace's own contract this fixes the result: exactly the edge white space is removed. |
| GoStrings.TrimSpaceIdempotent | config.go:176 | Trimming twice trims nothing more. |
| GoStrings.ToLower | config.go:177 | The length is kept. Each ASCII capital becomes its small letter; every other rune is kept. |
| GoStrings.ToLowerTrimSpaceCommute | config.go:176-177 | Lowering case and trimming white space can be done in either order. |
| GoNet.JoinHostPort | config.go:159 | A host containing a colon is bracketed. The result always ends in `:port`. |
| GoNet.SplitHostPort | destination.go:92 | No colon gives "missing port". On success the host has no brackets, the port has no colon or bracket, and the port is the text after the last colon. The input is rebuilt from the result, as `host:port` or as `[host]:port`. |
| GoNet.SplitJoinRoundTrip | destination.go:92-97 | SplitHostPort undoes JoinHostPort for every bracket-free host, IPv6 literals included, and every port without colons or brackets. |
| GoNet.UnbracketedColons | destination.go:92-96 | An unbracketed address with two colons, such as a bare IPv6 literal, is refused with "too many colons". |
| Config.ResolveDefaults | config.go:85-105 | A bad default proxy timeout fails first, and only then. A bad default connect timeout fails next. The defaults resolve exactly when both timeouts parse or are unset. Then: the listen IP is never empty and falls back to 127.0.0.1; the proxy timeout falls back to 0; the connect timeout falls back to 10 s. |
| Config.ApplyDefaults | config.go:85-105 | The imperative defaults section gives exactly `ResolveDefaults`: the same defaults, or the same error. |
| Config.ModeFor | config.go:161-174 | No mode, exactly when the route names none, the port is neither "80" nor "443", and no default mode is set. Otherwise: the route's own mode; else "http_host" for 80; else "tls_sni" for 443; else the default mode. |
| Config.ChooseMode | config.go:161-174 | The imperative port switch gives exactly `ModeFor`. |
| Config.DispatchModeMeaning | config.go:176-190 | HTTP Host sniffing is chosen exactly for the spellings of http_host, and TLS SNI exactly for those of tls_sni. Both keep the listen port. Any other text, trimmed with its case kept, becomes a static address through setPort. |
| Config.DispatchModeIgnoresCase | config.go:177 | Spellings equal up to ASCII case select the same mode. |
| Config.BuildDestination | config.go:176-190 | The imperative dispatch gives exactly `DispatchMode`. |
| Config.BuildRoute | config.go:108-191 | The loop body gives exactly `RouteFor`: the same route, or the same numbered error. |
| Config.PortString | config.go:149-158 | A string port is used as it is. A number port is text with no colon or bracket. |
| Config.Decimal | config.go:152 | Digits only, denoting the number, with no leading zero. |
| Config.NumberPortIsDecimal | config.go:151-152 | A JSON number port becomes its canonical decimal text: digits only, denoting the number, with no leading zero. |
| Config.DecimalIsPortText | config.go:152 | The decimal form of a number has no colon and no bracket. |
| Config.RouteErrorsInOrder | config.go:117-174 | Each route error is reported exactly when its own check fails and every earlier check passed. The order is: SOCKS address, listen IP, listen port presence, proxy timeout, connect timeout, listen port type, destination mode. |
| Config.RouteForPassedChecks | config.go:117-174 | A built route passed every check. |
| Config.RouteAddresses | config.go:128-159 | The SOCKS address goes through setPort with default port 1080. The listen address is the listen IP, joined with the listen port. |
| Config.ListenIpNeverMissing | config.go:85-87 | Once the defaults resolve, "missing listen IP address" is never reported. An empty listen IP becomes 127.0.0.1. |
| Config.TimeoutCascade | config.go:89-147 | A route's timeouts are its own, else the defaults', else 0 and 10 s. |
| Config.WellKnownPortsSelectSniffing | config.go:161-166 | A route without a destination sniffs the HTTP Host on port "80" and the TLS SNI on port "443", using that port. |
| Config.NumericWellKnownPorts | config.go:152 | The JSON numbers 80 and 443 render as "80" and "443". |
| Config.ParseConfig | config.go:75-202 | Gives exactly `ParseResult`. "no routes specified" comes first. Then a defaults error, with no routes. Then the route loop, which stops at the first failing record and keeps the routes built before it. |
| Config.BuildRoutesStops | config.go:117-127 | After the first error no later record is looked at. |
| Config.BuildRoutesShape | config.go:107-192 | The loop yields a route for every outcome, or fewer routes and the error of the outcome right after them. |
| Config.BuildRoutesAt | config.go:191 | Route k is outcome k's route. |
| Config.ParsedRoutes | config.go:107-201 | With resolved defaults, there is no error exactly when every record gives a route. An error is the one from the record right after the routes returned. |
| Config.ParsedRouteAt | config.go:107-191 | Route k is record k's route and carries number k + 1, so routes keep the input order. |
| NetConn.Conn.Read | main.go:40 | Fills a prefix of the buffer with the next pending bytes, and, into a non-empty buffer, at least one while any are pending. A read into a non-empty buffer that returns nothing reports how the stream ended; a read into an empty buffer reports no error. A closed connection reports "use of closed network connection". |
| NetConn.Conn.Write | main.go:40 | Appends all of the data when the connection can write. Otherwise appends nothing and reports why. |
| NetConn.Conn.CloseWrite | main.go:37 | Shuts the write side. On a closed connection it reports an error and changes nothing. |
| NetConn.Conn.Close | main.go:71 | The connection ends up closed. A second close reports an error. The ghost close counter grows by one. |
| NetConn.EndError | main.go:40 | io.Copy reports no error exactly when the source ended with EOF. Any other end error is passed on unchanged. |
| NetConn.Copy | main.go:40 | The destination receives exactly the first `written` bytes of what the source had pending. A closed source reads nothing and reports the closed-connection error. For an open source: when the destination accepts writes, every pending byte is copied and the error is the stream's end error, or none for EOF. When the destination refuses writes and bytes are pending, nothing is copied and the error is the write error. When nothing is pending, nothing is copied and the error is the stream's end error, whatever the destination. |
| Proxy.CopyBuffer | main.go:47-53 | Copying the recorded buffer writes it in one Write. An empty buffer writes nothing and never fails. |
| Proxy.Replayed | main.go:47-54 | The upstream stream is the recorded prefix, when present, followed by the live client bytes. |
| Proxy.ClientToUpstream | main.go:42-55 | The prefix goes first. If it cannot be written, no client byte is read. When the upstream accepts writes and the client is open, upstream receives the prefix followed by every client byte. The upstream write side is shut however the direction ends. |
| Proxy.UpstreamToClient | main.go:35-41 | The client receives the upstream's bytes, in order. The client write side is shut however the copy ends. |
| Proxy.DoProxying | main.go:19-59 | A failed dialer or dial reports its error and leaves both connections untouched. A successful dial returns no error. It closes the upstream exactly once, after shutting the write sides of both connections that were still open. Under the same open-and-writable conditions, it relays both directions in full. When a non-empty replay prefix cannot be written, the upstream receives nothing and the client's pending bytes stay unread. |
| Proxy.ArmTimer | main.go:64-73 | A timer is armed exactly when the proxy timeout is non-zero. |
| Proxy.RunExpiries | main.go:67-72 | Expiries alone close the connection at most once, and only when the timer was armed. |
| Proxy.ClosedExactlyOnce | main.go:64-84 | Any interleaving of timer expiries before and after the handler returns closes the client connection exactly once, with or without a timer. |
| Proxy.ParserReads | main.go:90 | The parser's reads through the wrapper keep the `RoConn` invariant. |
| Proxy.Resolve | main.go:86-98 | The result is `GetAddr` of the sniffed outcome. A static destination reads nothing. |
| Proxy.ExpireThenReturn | main.go:64-83 | With a timer that is absent or armed, an optional expiry followed by the deferred function closes the client connection, and it closes it exactly once. |
| Proxy.HandleConnection | main.go:61-118 | The client connection is closed exactly once. If resolution or dialing fails, nothing is relayed. Otherwise, with both connections open and writable, the upstream receives exactly the bytes the client sent, read bytes replayed first, and the client receives the upstream's bytes. After a successful dial, the write sides of both connections are shut (if still open), and the upstream is closed exactly once. Its frame lists only the pending input, the written bytes, the write shutdown, the closed flag and the close counter of each connection. How each peer's stream ends, and whether it resets, are the peer's fixed script and stay as they were. |

## Left out

- `readConfig` (the flag, file I/O and JSONC decoding) is left out. `ParseConfig` starts from the decoded configuration.
- `time.ParseDuration` is an input: a timeout field is unset, parsed to nanoseconds, or unparsable.
- Config.PortString: a JSON number port is a whole non-negative number. Go's `%.0f` formatting of fractions, negatives and huge floats is not modelled.
- GoStrings.ToLower: ASCII letters only. Go's Unicode case mapping of other runes is not modelled.
- `http.ReadRequest` and `tls.Server(...).Handshake()` are library code. The bytes they read are a list of read sizes, and what they report is the `Sniffed` input. So the model does not tie the Host or server name to the bytes read.
- SOCKS5 dialing (`proxy.SOCKS5`, `Dial`, the connect timeout) is an input `DialOutcome`. The upstream connection is given, not created.
- Goroutines and `sync.WaitGroup`s are left out. The two copy directions run one after the other. They touch disjoint state, so the final state is the same in either order.
- The peer does not react to what it receives: its bytes are a fixed script.
- Proxy.HandleConnection: the timer can fire only after forwarding has finished. A timer closing the connection during forwarding, and cutting the copies short, is not modelled.
- NetConn.Conn.Write: all or nothing, so `io.Copy`'s short-write error path is not modelled.
- NetConn.Conn.Read: the model chooses how many bytes a read delivers. Real network chunking is not modelled.
- `RoConn` deadlines do nothing, so deadlines on connections are not modelled at all.
- The listeners, `acceptAndHandle`, `multiProxyServer`, signal handling and `main` are left out.
- Logging, `DEBUG`, `String` and `toString` are left out.
- Destination.GetAddr, Proxy.Resolve and Proxy.HandleConnection use the corrected `HostHeaderGetAddr`. As written, a client on an `http_host` route whose first bytes are not an HTTP request makes `GetAddr` dereference a nil request. That panic is not recovered in the handler goroutine, so it ends the whole process and every other connection. Only `HostHeaderGetAddrAsWritten` models this (see Findings).
- Destination.SetPort follows the code as written for a bracketed IPv6 literal without a port, such as a Host header `[::1]`: the literal does not split, so it is bracketed a second time, and the resulting `[[::1]]:80` cannot be split into a host and a port (`SetPortBracketedWithoutPort`). The model keeps this behaviour rather than a corrected one, because the repository states no other intent for this case.
- Strings are sequences of Unicode characters. Go strings are bytes, so a Host header or server name that is not valid UTF-8 cannot be represented.

## Findings

| source | as written | input that shows it | evidently intended | confidence | as-written member | corrected member |
|---|---|---|---|---|---|---|
| destination.go:35-39 | `rq.Host` is read before `err` is checked. `http.ReadRequest` returns a nil request with its error. | A client whose first bytes are not an HTTP request, on an `http_host` route. | Report "failed to read host header" and close that connection. | not executed | Destination.HostHeaderGetAddrAsWritten, with Destination.HostHeaderErrorBranchUnreachable | Destination.HostHeaderGetAddr |

On the input shown, the code as written dereferences a nil request. The panic aborts the process, and the error branch can never be reached.

=== FILE: config.dfy ===
/** Route configuration building (parseConfig): the decoded JSON configuration
    becomes an ordered list of routes, or the first configuration error.
    Reading and decoding the file, duration parsing and float formatting are
    not modelled; their outcomes are part of the input. */
module Config {
  import opened Wrappers
  import opened GoStrings
  import opened GoNet
  import opened Destination

  /** Durations in nanoseconds, as Go's time.Duration. */
  const Second: int := 1_000_000_000

  /** A timeout field: the empty string, or what time.ParseDuration makes of it. */
  datatype TimeoutField = Unset | Parsed(d: int) | Unparsable

  /** The decoded `listen_port` value: absent (nil), a JSON number (a whole
      non-negative number here), a JSON string, or any other JSON value. */
  datatype PortField = Missing | Number(n: nat) | Text(s: string) | OtherType

  datatype JsonDefaults = JsonDefaults(
    socks: string, listenIp: string, destination: string,
    connectTimeout: TimeoutField, proxyTimeout: TimeoutField)

  datatype JsonRoute = JsonRoute(
    socks: string, listenIp: string, listenPort: PortField, destination: string,
    connectTimeout: TimeoutField, proxyTimeout: TimeoutField)

  datatype JsonConfig = JsonConfig(defaults: JsonDefaults, routes: seq<JsonRoute>)

  /** RouteConfig: one listening route, numbered from 1. */
  datatype RouteConfig = RouteConfig(
    num: nat, socks: string, listenAddr: string, destination: Destination,
    proxyTimeout: int, connectTimeout: int)

  datatype RouteProblem =
    | MissingSocks          // "missing SOCKS server address"
    | MissingListenIp       // "missing listen IP address"
    | MissingListenPort     // "missing listen port"
    | BadProxyTimeout       // "incorrect proxy_timeout value"
    | BadConnectTimeout     // "incorrect connect_timeout value"
    | BadListenPort         // "incorrect listen port value"
    | MissingDestination    // "missing destination identification method"

  datatype ConfigError =
    | NoRoutes                    // "no routes specified"
    | BadDefaultProxyTimeout      // "incorrect default proxy_timeout value"
    | BadDefaultConnectTimeout    // "incorrect default connect_timeout value"
    | RouteError(route: nat, problem: RouteProblem)   // "route #N: ..."

  /** The defaults once the hardcoded fallbacks are applied. */
  datatype RouteDefaults = RouteDefaults(
    socks: string, listenIp: string, destination: string,
    proxyTimeout: int, connectTimeout: int)

  const DefaultListenIp: string := "127.0.0.1"
  const DefaultSocksPort: string := "1080"
  const DefaultConnectTimeout: int := 10 * Second

  /** A configured value, or the fallback when it is the empty string. */
  function Fallback(value: string, fallback: string): (r: string)
    ensures r == "" <==> value == "" && fallback == ""
    ensures value != "" ==> r == value
  {
    if value == "" then fallback else value
  }

  /** A timeout field, or the fallback when it is unset. */
  function TimeoutOr(field: TimeoutField, fallback: int): (r: int)
    requires !field.Unparsable?
    ensures field.Parsed? ==> r == field.d
    ensures field.Unset? ==> r == fallback
  {
    if field.Parsed? then field.d else fallback
  }

  function DigitChar(d: nat): (c: char)
    requires d < 10
    ensures '0' <= c <= '9' && c as int - '0' as int == d
  {
    ('0' as int + d) as char
  }

  /** The number a string of decimal digits denotes, most significant first. */
  function DigitsValue(s: string): int
  {
    if s == [] then 0 else DigitsValue(s[..|s| - 1]) * 10 + (s[|s| - 1] as int - '0' as int)
  }

  /** The decimal rendering of a whole number (Go's "%.0f" of a whole float64):
      digits only, no leading zero, denoting `n`. */
  function Decimal(n: nat): (r: string)
    ensures r != [] && forall i :: 0 <= i < |r| ==> '0' <= r[i] <= '9'
    ensures DigitsValue(r) == n
    ensures |r| > 1 ==> r[0] != '0'
  {
    if n < 10 then
      var r := [DigitChar(n)];
      assert r[..0] == [];
      r
    else
      var high := Decimal(n / 10);
      var r := high + [DigitChar(n % 10)];
      assert r[..|r| - 1] == high;
      assert |high| == 1 ==> high[..0] == [];
      r
  }

  /** Decimal renderings are valid port text: no colon, no bracket. */
  lemma DecimalIsPortText(n: nat)
    ensures PortText(Decimal(n))
  {
    var s := Decimal(n);
    assert forall i :: 0 <= i < |s| ==> s[i] != ':' && s[i] != '[' && s[i] != ']';
  }

  /** The listen port as text, when the JSON value is a number or a string. */
  function PortString(p: PortField): (r: string)
    requires p.Number? || p.Text?
    ensures p.Text? ==> r == p.s
    ensures p.Number? ==> PortText(r) && r != ""
  {
    DecimalIsPortText(if p.Number? then p.n else 0);
    if p.Number? then Decimal(p.n) else p.s
  }

  /** A number port is rendered as its canonical decimal text: digits only,
      denoting the number, with no leading zero. */
  lemma NumberPortIsDecimal(n: nat)
    ensures var r := PortString(Number(n));
            (forall i :: 0 <= i < |r| ==> '0' <= r[i] <= '9') && DigitsValue(r) == n && (|r| > 1 ==> r[0] != '0')
  {
  }

  /** The defaults section, with the listen IP forced to 127.0.0.1 when empty and
      the default timeouts parsed (proxy before connect), else 0 and 10s. */
  function ResolveDefaults(d: JsonDefaults): (r: Result<RouteDefaults, ConfigError>)
    ensures r == Failure(BadDefaultProxyTimeout) <==> d.proxyTimeout.Unparsable?
    ensures r == Failure(BadDefaultConnectTimeout) <==> !d.proxyTimeout.Unparsable? && d.connectTimeout.Unparsable?
    ensures r.Success? <==> !d.proxyTimeout.Unparsable? && !d.connectTimeout.Unparsable?
    ensures r.Success? ==> r.value.listenIp != "" && r.value.listenIp == Fallback(d.listenIp, DefaultListenIp)
    ensures r.Success? ==> r.value.socks == d.socks && r.value.destination == d.destination
    ensures r.Success? ==> r.value.proxyTimeout == TimeoutOr(d.proxyTimeout, 0)
    ensures r.Success? ==> r.value.connectTimeout == TimeoutOr(d.connectTimeout, DefaultConnectTimeout)
  {
    if d.proxyTimeout.Unparsable? then Failure(BadDefaultProxyTimeout)
    else if d.connectTimeout.Unparsable? then Failure(BadDefaultConnectTimeout)
    else Success(RouteDefaults(
      d.socks, Fallback(d.listenIp, DefaultListenIp), d.destination,
      TimeoutOr(d.proxyTimeout, 0), TimeoutOr(d.connectTimeout, DefaultConnectTimeout)))
  }

  /** The resolution mode a route asks for: its own, else one chosen by the listen
      port (80: http_host, 443: tls_sni), else the defaults' one, else none. */
  function ModeFor(routeDestination: string, listenPort: string, defaultDestination: string): (r: Option<string>)
    ensures r.None? <==> routeDestination == "" && listenPort != "80" && listenPort != "443" && defaultDestination == ""
    ensures routeDestination != "" ==> r == Some(routeDestination)
    ensures routeDestination == "" && listenPort == "80" ==> r == Some("http_host")
    ensures routeDestination == "" && listenPort == "443" ==> r == Some("tls_sni")
    ensures routeDestination == "" && listenPort != "80" && listenPort != "443" && defaultDestination != "" ==>
              r == Some(defaultDestination)
  {
    if routeDestination != "" then Some(routeDestination)
    else if listenPort == "80" then Some("http_host")
    else if listenPort == "443" then Some("tls_sni")
    else if defaultDestination == "" then None
    else Some(defaultDestination)
  }

  /** The mode names are matched trimmed and case-insensitively; anything else is
      a static address, trimmed but with its case kept, given the listen port
      when it carries none. */
  function DispatchMode(mode: string, listenPort: string): Destination
  {
    var trimmed := TrimSpace(mode);
    var lowered := ToLower(trimmed);
    if lowered == "http_host" then HostHeader(listenPort)
    else if lowered == "tls_sni" then Sni(listenPort)
    else Static(SetPort(trimmed, listenPort))
  }

  /** Which destination a mode selects: HTTP Host sniffing exactly for the
      spellings of http_host, TLS SNI exactly for those of tls_sni, both on the
      listen port; otherwise the trimmed text as a static address. */
  lemma DispatchModeMeaning(mode: string, listenPort: string)
    ensures DispatchMode(mode, listenPort).HostHeader? <==> ToLower(TrimSpace(mode)) == "http_host"
    ensures DispatchMode(mode, listenPort).Sni? <==> ToLower(TrimSpace(mode)) == "tls_sni"
    ensures !DispatchMode(mode, listenPort).Static? ==> DispatchMode(mode, listenPort).listenPort == listenPort
    ensures DispatchMode(mode, listenPort).Static? ==>
              DispatchMode(mode, listenPort).dest == SetPort(TrimSpace(mode), listenPort)
  {
  }

  /** Two spellings that differ only in letter case select the same mode. */
  lemma DispatchModeIgnoresCase(mode: string, other: string, listenPort: string)
    requires ToLower(mode) == ToLower(other)
    ensures DispatchMode(mode, listenPort).HostHeader? == DispatchMode(other, listenPort).HostHeader?
    ensures DispatchMode(mode, listenPort).Sni? == DispatchMode(other, listenPort).Sni?
  {
    ToLowerTrimSpaceCommute(mode);
    ToLowerTrimSpaceCommute(other);
  }

  /** One route record, after the defaults: the checks run in parseConfig's order
      (SOCKS address, listen IP, listen port presence, proxy timeout, connect
      timeout, listen port type, destination mode); every error names the route. */
  function RouteFor(defs: RouteDefaults, jr: JsonRoute, num: nat): (r: Result<RouteConfig, ConfigError>)
    ensures r.Success? ==> r.value.num == num
    ensures r.Failure? ==> r.error.RouteError? && r.error.route == num
  {
    var socks := Fallback(jr.socks, defs.socks);
    var ip := Fallback(jr.listenIp, defs.listenIp);
    if socks == "" then Failure(RouteError(num, MissingSocks))
    else if ip == "" then Failure(RouteError(num, MissingListenIp))
    else if jr.listenPort.Missing? then Failure(RouteError(num, MissingListenPort))
    else if jr.proxyTimeout.Unparsable? then Failure(RouteError(num, BadProxyTimeout))
    else if jr.connectTimeout.Unparsable? then Failure(RouteError(num, BadConnectTimeout))
    else if jr.listenPort.OtherType? then Failure(RouteError(num, BadListenPort))
    else
      var port := PortString(jr.listenPort);
      match ModeFor(jr.destination, port, defs.destination)
      case None => Failure(RouteError(num, MissingDestination))
      case Some(mode) =>
        Success(RouteConfig(
          num, SetPort(socks, DefaultSocksPort), JoinHostPort(ip, port), DispatchMode(mode, port),
          TimeoutOr(jr.proxyTimeout, defs.proxyTimeout), TimeoutOr(jr.connectTimeout, defs.connectTimeout)))
  }

  /** What each record would give on its own, the record at index k being route
      number k + 1. */
  function RouteOutcomes(defs: RouteDefaults, records: seq<JsonRoute>): (r: seq<Result<RouteConfig, ConfigError>>)
    ensures |r| == |records|
  {
    seq(|records|, k requires 0 <= k < |records| => RouteFor(defs, records[k], k + 1))
  }

  /** The routes taken, in order, from the outcomes until the first error, and
      that error. */
  function BuildRoutes(outcomes: seq<Result<RouteConfig, ConfigError>>): (seq<RouteConfig>, Option<ConfigError>)
    decreases |outcomes|
  {
    if outcomes == [] then ([], None)
    else
      var before := BuildRoutes(outcomes[..|outcomes| - 1]);
      if before.1.Some? then before
      else match outcomes[|outcomes| - 1]
        case Success(route) => (before.0 + [route], None)
        case Failure(e) => (before.0, Some(e))
  }

  /** parseConfig as a whole: no routes, a bad default, or the route loop. */
  function ParseResult(config: JsonConfig): (seq<RouteConfig>, Option<ConfigError>)
  {
    if |config.routes| == 0 then ([], Some(NoRoutes))
    else match ResolveDefaults(config.defaults)
      case Failure(e) => ([], Some(e))
      case Success(defs) => BuildRoutes(RouteOutcomes(defs, config.routes))
  }

  /** parseConfig after readConfig: the routes, or the first error together with
      the routes built before it (Go returns both named results). */
  method ParseConfig(config: JsonConfig) returns (routes: seq<RouteConfig>, err: Option<ConfigError>)
    ensures (routes, err) == ParseResult(config)
  {
    routes := [];
    if |config.routes| == 0 {
      err := Some(NoRoutes);
      return;
    }
    var defs, defaultsErr := ApplyDefaults(config.defaults);
    if defaultsErr.Some? {
      err := defaultsErr;
      return;
    }

    ghost var outcomes := RouteOutcomes(defs, config.routes);
    ParseResultIsLoop(config, defs);
    for i := 0 to |config.routes|
      invariant (routes, None) == BuildRoutes(outcomes[..i])
    {
      var route, routeErr := BuildRoute(defs, config.routes[i], i + 1);
      OutcomeAt(defs, config.routes, i);
      BuildRoutesNext(outcomes, i);
      if routeErr.Some? {
        err := routeErr;
        BuildRoutesStops(outcomes, i + 1);
        return;
      }
      routes := routes + [route];
    }
    assert outcomes[..|outcomes|] == outcomes;
    err := None;
  }

  /** One more outcome either extends the routes or records the first error. */
  lemma BuildRoutesNext(outcomes: seq<Result<RouteConfig, ConfigError>>, i: nat)
    requires i < |outcomes|
    ensures BuildRoutes(outcomes[..i]).1.None? && outcomes[i].Success? ==>
              BuildRoutes(outcomes[..i + 1]) == (BuildRoutes(outcomes[..i]).0 + [outcomes[i].value], None)
    ensures BuildRoutes(outcomes[..i]).1.None? && outcomes[i].Failure? ==>
              BuildRoutes(outcomes[..i + 1]) == (BuildRoutes(outcomes[..i]).0, Some(outcomes[i].error))
  {
    assert outcomes[..i + 1][..i] == outcomes[..i];
  }

  /** Once a prefix of the outcomes has failed, the later ones are never looked at. */
  lemma {:induction false} BuildRoutesStops(outcomes: seq<Result<RouteConfig, ConfigError>>, j: nat)
    requires j <= |outcomes| && BuildRoutes(outcomes[..j]).1.Some?
    ensures BuildRoutes(outcomes) == BuildRoutes(outcomes[..j])
    decreases |outcomes| - j
  {
    if j < |outcomes| {
      var longer := outcomes[..j + 1];
      assert longer[..|longer| - 1] == outcomes[..j];
      BuildRoutesStops(outcomes, j + 1);
    } else {
      assert outcomes[..j] == outcomes;
    }
  }

  /** The defaults section of parseConfig: the listen IP forced to 127.0.0.1 when
      empty, then the default timeouts parsed, proxy before connect. */
  method ApplyDefaults(d: JsonDefaults) returns (defs: RouteDefaults, err: Option<ConfigError>)
    ensures err.None? ==> ResolveDefaults(d) == Success(defs)
    ensures err.Some? ==> ResolveDefaults(d) == Failure(err.value)
  {
    var defaults := d;
    if defaults.listenIp == "" {
      defaults := defaults.(listenIp := DefaultListenIp);
    }
    var defaultProxyTimeout := 0;
    var defaultConnectTimeout := DefaultConnectTimeout;
    defs := RouteDefaults(defaults.socks, defaults.listenIp, defaults.destination, 0, 0);
    if !defaults.proxyTimeout.Unset? {
      if defaults.proxyTimeout.Unparsable? {
        return defs, Some(BadDefaultProxyTimeout);
      }
      defaultProxyTimeout := defaults.proxyTimeout.d;
    }
    if !defaults.connectTimeout.Unset? {
      if defaults.connectTimeout.Unparsable? {
        return defs, Some(BadDefaultConnectTimeout);
      }
      defaultConnectTimeout := defaults.connectTimeout.d;
    }
    defs := defs.(proxyTimeout := defaultProxyTimeout, connectTimeout := defaultConnectTimeout);
    err := None;
  }

  /** The route loop stops only at a failing outcome: it yields a route for
      every outcome, or fewer routes and the error of the outcome right after them. */
  lemma {:induction false} BuildRoutesShape(outcomes: seq<Result<RouteConfig, ConfigError>>)
    ensures var (routes, err) := BuildRoutes(outcomes);
            && |routes| <= |outcomes|
            && (err.None? <==> |routes| == |outcomes|)
            && (err.Some? ==> outcomes[|routes|] == Failure(err.value))
    decreases |outcomes|
  {
    if outcomes != [] {
      var init := outcomes[..|outcomes| - 1];
      BuildRoutesShape(init);
      var before := BuildRoutes(init);
      if before.1.Some? {
        assert outcomes[|before.0|] == init[|before.0|];
      }
    }
  }

  /** The k-th route taken (from 0) is the k-th outcome's route. */
  lemma {:induction false} BuildRoutesAt(outcomes: seq<Result<RouteConfig, ConfigError>>, k: nat)
    requires k < |BuildRoutes(outcomes).0|
    ensures k < |outcomes| && outcomes[k] == Success(BuildRoutes(outcomes).0[k])
    decreases |outcomes|
  {
    var init := outcomes[..|outcomes| - 1];
    BuildRoutesShape(init);
    if k < |BuildRoutes(init).0| {
      BuildRoutesAt(init, k);
    }
  }

  lemma ParseResultIsLoop(config: JsonConfig, defs: RouteDefaults)
    requires |config.routes| > 0 && ResolveDefaults(config.defaults) == Success(defs)
    ensures ParseResult(config) == BuildRoutes(RouteOutcomes(defs, config.routes))
  {
  }

  /** Record k is taken on its own, as route number k + 1. */
  lemma OutcomeAt(defs: RouteDefaults, records: seq<JsonRoute>, k: nat)
    requires k < |records|
    ensures RouteOutcomes(defs, records)[k] == RouteFor(defs, records[k], k + 1)
  {
  }

  /** Once the defaults resolve, parseConfig stops only at a failing record: it
      yields one route per record, or the routes of the records before the first
      failing one and that record's error. */
  lemma ParsedRoutes(config: JsonConfig, defs: RouteDefaults)
    requires |config.routes| > 0 && ResolveDefaults(config.defaults) == Success(defs)
    ensures var (routes, err) := ParseResult(config);
            && (err.None? <==> |routes| == |config.routes|)
            && (err.Some? ==> |routes| < |config.routes|
                              && RouteFor(defs, config.routes[|routes|], |routes| + 1) == Failure(err.value))
  {
    var outcomes := RouteOutcomes(defs, config.routes);
    ParseResultIsLoop(config, defs);
    BuildRoutesShape(outcomes);
    var (routes, err) := BuildRoutes(outcomes);
    if err.Some? {
      OutcomeAt(defs, config.routes, |routes|);
    }
  }

  /** Route k (from 0) is record k's route, numbered k + 1: routes keep the input order. */
  lemma ParsedRouteAt(config: JsonConfig, defs: RouteDefaults, k: nat)
    requires |config.routes| > 0 && ResolveDefaults(config.defaults) == Success(defs)
    requires k < |ParseResult(config).0|
    ensures k < |config.routes|
    ensures RouteFor(defs, config.routes[k], k + 1) == Success(ParseResult(config).0[k])
    ensures ParseResult(config).0[k].num == k + 1
  {
    var outcomes := RouteOutcomes(defs, config.routes);
    ParseResultIsLoop(config, defs);
    BuildRoutesAt(outcomes, k);
    OutcomeAt(defs, config.routes, k);
  }

  /** The body of parseConfig's loop: one record, its missing fields taken from the
      defaults, checked and turned into a route. */
  method BuildRoute(defs: RouteDefaults, record: JsonRoute, num: nat) returns (route: RouteConfig, err: Option<ConfigError>)
    ensures err.None? ==> RouteFor(defs, record, num) == Success(route)
    ensures err.Some? ==> RouteFor(defs, record, num) == Failure(err.value)
  {
    var jsonRoute := record;
    route := RouteConfig(num, "", "", Static(""), 0, 0);
    if jsonRoute.socks == "" {
      jsonRoute := jsonRoute.(socks := defs.socks);
    }
    if jsonRoute.listenIp == "" {
      jsonRoute := jsonRoute.(listenIp := defs.listenIp);
    }
    if jsonRoute.socks == "" {
      return route, Some(RouteError(num, MissingSocks));
    } else if jsonRoute.listenIp == "" {
      return route, Some(RouteError(num, MissingListenIp));
    } else if jsonRoute.listenPort.Missing? {
      return route, Some(RouteError(num, MissingListenPort));
    }
    route := route.(socks := SetPort(jsonRoute.socks, DefaultSocksPort));

    if jsonRoute.proxyTimeout != Unset {
      if jsonRoute.proxyTimeout.Unparsable? {
        return route, Some(RouteError(num, BadProxyTimeout));
      }
      route := route.(proxyTimeout := jsonRoute.proxyTimeout.d);
    } else {
      route := route.(proxyTimeout := defs.proxyTimeout);
    }
    if jsonRoute.connectTimeout != Unset {
      if jsonRoute.connectTimeout.Unparsable? {
        return route, Some(RouteError(num, BadConnectTimeout));
      }
      route := route.(connectTimeout := jsonRoute.connectTimeout.d);
    } else {
      route := route.(connectTimeout := defs.connectTimeout);
    }

    var listenPort: string;
    match jsonRoute.listenPort {
      case Number(n) => listenPort := Decimal(n);
      case Text(s) => listenPort := s;
      case _ => return route, Some(RouteError(num, BadListenPort));
    }
    assert listenPort == PortString(record.listenPort);
    route := route.(listenAddr := JoinHostPort(jsonRoute.listenIp, listenPort));

    var mode := ChooseMode(jsonRoute.destination, listenPort, defs.destination);
    if mode.None? {
      return route, Some(RouteError(num, MissingDestination));
    }
    var destination := BuildDestination(mode.value, listenPort);
    route := route.(destination := destination);
    err := None;
  }

  /** The destination switch on the listen port when a route names no mode. */
  method ChooseMode(destination: string, listenPort: string, defaultDestination: string) returns (mode: Option<string>)
    ensures mode == ModeFor(destination, listenPort, defaultDestination)
  {
    mode := Some(destination);
    if destination == "" {
      if listenPort == "80" {
        mode := Some("http_host");
      } else if listenPort == "443" {
        mode := Some("tls_sni");
      } else if defaultDestination == "" {
        mode := None;
      } else {
        mode := Some(defaultDestination);
      }
    }
  }

  /** The destination object for a mode: trimmed, matched case-insensitively. */
  method BuildDestination(mode: string, listenPort: string) returns (destination: Destination)
    ensures destination == DispatchMode(mode, listenPort)
  {
    var trimmed := TrimSpace(mode);
    var lowered := ToLower(trimmed);
    if lowered == "http_host" {
      destination := HostHeader(listenPort);
    } else if lowered == "tls_sni" {
      destination := Sni(listenPort);
    } else {
      destination := Static(SetPort(trimmed, listenPort));
    }
  }

  /** Each route error is reported exactly when its own check fails and every
      earlier check passed. */
  lemma RouteErrorsInOrder(defs: RouteDefaults, jr: JsonRoute, num: nat)
    ensures var socks := Fallback(jr.socks, defs.socks);
            var ip := Fallback(jr.listenIp, defs.listenIp);
            var r := RouteFor(defs, jr, num);
            (r == Failure(RouteError(num, MissingSocks)) <==> socks == "")
            && (r == Failure(RouteError(num, MissingListenIp)) <==> socks != "" && ip == "")
            && (r == Failure(RouteError(num, MissingListenPort)) <==> socks != "" && ip != "" && jr.listenPort.Missing?)
            && (r == Failure(RouteError(num, BadProxyTimeout)) <==>
                  socks != "" && ip != "" && !jr.listenPort.Missing? && jr.proxyTimeout.Unparsable?)
            && (r == Failure(RouteError(num, BadConnectTimeout)) <==>
                  socks != "" && ip != "" && !jr.listenPort.Missing? && !jr.proxyTimeout.Unparsable?
                  && jr.connectTimeout.Unparsable?)
            && (r == Failure(RouteError(num, BadListenPort)) <==>
                  socks != "" && ip != "" && !jr.listenPort.Missing? && !jr.proxyTimeout.Unparsable?
                  && !jr.connectTimeout.Unparsable? && jr.listenPort.OtherType?)
            && (r == Failure(RouteError(num, MissingDestination)) <==>
                  socks != "" && ip != "" && (jr.listenPort.Number? || jr.listenPort.Text?)
                  && !jr.proxyTimeout.Unparsable? && !jr.connectTimeout.Unparsable?
                  && ModeFor(jr.destination, PortString(jr.listenPort), defs.destination).None?)
  {
  }

  /** The listen IP defaults to 127.0.0.1, so "missing listen IP address" is never
      reported once the defaults have been resolved. */
  lemma ListenIpNeverMissing(d: JsonDefaults, jr: JsonRoute, num: nat)
    requires ResolveDefaults(d).Success?
    ensures RouteFor(ResolveDefaults(d).value, jr, num) != Failure(RouteError(num, MissingListenIp))
    ensures RouteFor(ResolveDefaults(d).value, jr, num).Success? && jr.listenIp == "" && d.listenIp == "" ==>
              RouteFor(ResolveDefaults(d).value, jr, num).value.listenAddr == JoinHostPort(DefaultListenIp, PortString(jr.listenPort))
  {
  }

  /** Timeouts cascade: the route's value, else the defaults' value, else 0 for the
      proxy timeout and 10 seconds for the connect timeout. */
  lemma TimeoutCascade(d: JsonDefaults, jr: JsonRoute, num: nat)
    requires ResolveDefaults(d).Success? && RouteFor(ResolveDefaults(d).value, jr, num).Success?
    ensures var route := RouteFor(ResolveDefaults(d).value, jr, num).value;
            route.proxyTimeout == (if jr.proxyTimeout.Parsed? then jr.proxyTimeout.d
                                   else if d.proxyTimeout.Parsed? then d.proxyTimeout.d else 0)
            && route.connectTimeout == (if jr.connectTimeout.Parsed? then jr.connectTimeout.d
                                        else if d.connectTimeout.Parsed? then d.connectTimeout.d else 10 * Second)
  {
  }

  /** Without a destination, listen port 80 sniffs the HTTP Host header and 443
      the TLS server name, each using that port. */
  lemma WellKnownPortsSelectSniffing(defs: RouteDefaults, jr: JsonRoute, num: nat)
    requires jr.destination == "" && RouteFor(defs, jr, num).Success?
    ensures PortString(jr.listenPort) == "80" ==> RouteFor(defs, jr, num).value.destination == HostHeader("80")
    ensures PortString(jr.listenPort) == "443" ==> RouteFor(defs, jr, num).value.destination == Sni("443")
  {
    RouteForPassedChecks(defs, jr, num);
    ModeNamesAreTrimmedLowerCase();
  }

  lemma ModeNamesAreTrimmedLowerCase()
    ensures ToLower(TrimSpace("http_host")) == "http_host"
    ensures ToLower(TrimSpace("tls_sni")) == "tls_sni"
  {
    NormalModeName("http_host");
    NormalModeName("tls_sni");
  }

  /** A name without edge white space or upper-case letters is its own normal form. */
  lemma NormalModeName(s: string)
    requires s != [] && !IsSpace(s[0]) && !IsSpace(s[|s| - 1])
    requires forall i :: 0 <= i < |s| ==> !('A' <= s[i] <= 'Z')
    ensures ToLower(TrimSpace(s)) == s
  {
    TrimSpaceOfTrimmed(s);
    ToLowerOfLowerCase(s);
  }

  /** A JSON number 80 or 443 renders as the text the port switch compares with. */
  lemma NumericWellKnownPorts()
    ensures Decimal(80) == "80" && Decimal(443) == "443"
  {
  }

  /** The SOCKS address is the route's or the defaults' one given port 1080 when
      it names none; the listen address joins the listen IP and the port text. */
  lemma RouteAddresses(defs: RouteDefaults, jr: JsonRoute, num: nat)
    requires RouteFor(defs, jr, num).Success?
    ensures RouteFor(defs, jr, num).value.socks == SetPort(Fallback(jr.socks, defs.socks), DefaultSocksPort)
    ensures RouteFor(defs, jr, num).value.listenAddr ==
              JoinHostPort(Fallback(jr.listenIp, defs.listenIp), PortString(jr.listenPort))
  {
    RouteForPassedChecks(defs, jr, num);
  }

  /** A route is built only when every check passed. */
  lemma RouteForPassedChecks(defs: RouteDefaults, jr: JsonRoute, num: nat)
    requires RouteFor(defs, jr, num).Success?
    ensures Fallback(jr.socks, defs.socks) != "" && Fallback(jr.listenIp, defs.listenIp) != ""
    ensures (jr.listenPort.Number? || jr.listenPort.Text?)
    ensures !jr.proxyTimeout.Unparsable? && !jr.connectTimeout.Unparsable?
    ensures ModeFor(jr.destination, PortString(jr.listenPort), defs.destination).Some?
  {
  }

}

=== FILE: destination.dfy ===
/** Destination resolution: the repository's `setPort` and the three ways a
    route finds the address to dial (a fixed address, the HTTP `Host` header,
    the TLS Server Name Indication). The HTTP request parser and the TLS
    handshake are library code: their outcome is an input here. */
module Destination {
  import opened Wrappers
  import opened GoStrings
  import opened GoNet

  /** setPort: keep the port the address already carries, otherwise append `defaultPort`. */
  function SetPort(hostWithOptPort: string, defaultPort: string): (r: string)
    ensures SplitHostPort(hostWithOptPort).Success? ==>
              SplitHostPort(r) == SplitHostPort(hostWithOptPort)
    ensures SplitHostPort(hostWithOptPort).Failure? && NoBrackets(hostWithOptPort) && PortText(defaultPort) ==>
              SplitHostPort(r) == Success((hostWithOptPort, defaultPort))
    ensures PlainHost(hostWithOptPort) ==> r == hostWithOptPort + ":" + defaultPort
    ensures SplitHostPort(hostWithOptPort).Failure? ==> r == JoinHostPort(hostWithOptPort, defaultPort)
  {
    match SplitHostPort(hostWithOptPort)
    case Success((host, port)) =>
      SplitJoinRoundTrip(host, port);
      JoinHostPort(host, port)
    case Failure(_) =>
      JoinRecoverable(hostWithOptPort, defaultPort);
      JoinHostPort(hostWithOptPort, defaultPort)
  }

  lemma JoinRecoverable(host: string, port: string)
    ensures NoBrackets(host) && PortText(port) ==> SplitHostPort(JoinHostPort(host, port)) == Success((host, port))
  {
    if NoBrackets(host) && PortText(port) {
      SplitJoinRoundTrip(host, port);
    }
  }

  /** Applying setPort to its own result changes nothing, whatever the second
      default: the first application already fixed a port. */
  lemma SetPortIdempotent(hostWithOptPort: string, defaultPort: string, otherDefault: string)
    requires SplitHostPort(hostWithOptPort).Success? || (NoBrackets(hostWithOptPort) && PortText(defaultPort))
    ensures SetPort(SetPort(hostWithOptPort, defaultPort), otherDefault) == SetPort(hostWithOptPort, defaultPort)
  {
    var once := SetPort(hostWithOptPort, defaultPort);
    var split := SplitHostPort(once);
    assert split.Success?;
    if SplitHostPort(hostWithOptPort).Success? {
      assert once == JoinHostPort(split.value.0, split.value.1);
    } else {
      assert split.value == (hostWithOptPort, defaultPort);
    }
  }

  /** An IPv6 literal in brackets without a port, as an HTTP Host header writes
      it, does not split ("missing port"), so it is bracketed a second time; the
      result cannot be split into a host and a port. */
  lemma SetPortBracketedWithoutPort()
    ensures SplitHostPort("[::1]") == Failure(MissingPort)
    ensures SetPort("[::1]", "80") == "[[::1]]:80"
    ensures SplitHostPort("[[::1]]:80").Failure?
  {
    BracketedWithoutPortFails();
    BracketedWithoutPortJoined();
    DoubleBracketsFail();
  }

  lemma BracketedWithoutPortJoined()
    ensures SetPort("[::1]", "80") == "[[::1]]:80"
  {
    var hp := "[::1]";
    BracketedWithoutPortFails();
    assert hp[1] == ':';
    var j := JoinHostPort(hp, "80");
    assert j == "[" + hp + "]:" + "80";
    assert SetPort(hp, "80") == j;
  }

  lemma BracketedWithoutPortFails()
    ensures SplitHostPort("[::1]") == Failure(MissingPort)
  {
    var hp := "[::1]";
    LastIndexAt(hp, ':', 2);
    IndexAt(hp, ']', 4);
  }

  lemma DoubleBracketsFail()
    ensures SplitHostPort("[[::1]]:80") == Failure(MissingPort)
  {
    var hp := "[[::1]]:80";
    LastIndexAt(hp, ':', 7);
    IndexAt(hp, ']', 5);
  }

  /** A port the address already carries wins over the default. */
  lemma SetPortKeepsExplicitPort(host: string, port: string, defaultPort: string)
    requires PlainHost(host) && PortText(port)
    ensures SetPort(host + ":" + port, defaultPort) == host + ":" + port
  {
    SplitJoinRoundTrip(host, port);
    assert JoinHostPort(host, port) == host + ":" + port;
  }

  /** How a route finds its destination; the sniffing variants carry the listen port. */
  datatype Destination =
    | Static(dest: string)
    | HostHeader(listenPort: string)
    | Sni(listenPort: string)

  /** Outcome of reading one HTTP request from the connection (http.ReadRequest):
      the request's Host, or a parse error (the library then returns no request). */
  datatype HttpRequest = Request(host: string) | RequestError

  /** Outcome of the aborted TLS server handshake: the server name captured by the
      ClientHello hook, if the hook ran, and whether the handshake reported an error. */
  datatype ClientHello = ClientHello(serverName: Option<string>, handshakeFailed: bool)

  /** What the protocol parsers make of the bytes read from a client. */
  datatype Sniffed = Sniffed(request: HttpRequest, hello: ClientHello)

  datatype ResolveError =
    | HostHeaderUnreadable   // "failed to read host header"
    | EmptyHostHeader        // "empty host header"
    | SniUnreadable          // "failed to read TLS SNI"
    | EmptySni               // "empty TLS SNI host name"

  /** StaticDestination.GetAddr: the configured address, whatever the client sends. */
  function StaticGetAddr(dest: string, sniffed: Sniffed): (r: Result<string, ResolveError>)
    ensures r == Success(dest)
  {
    Success(dest)
  }

  /** HostHeaderDestination.GetAddr with the parse error examined before the
      request is used (see HostHeaderGetAddrAsWritten for the code as written). */
  function HostHeaderGetAddr(listenPort: string, request: HttpRequest): (r: Result<string, ResolveError>)
    ensures request.RequestError? <==> r == Failure(HostHeaderUnreadable)
    ensures r == Failure(EmptyHostHeader) <==> request.Request? && TrimSpace(request.host) == ""
    ensures r.Success? ==> request.Request? && TrimSpace(request.host) != ""
    ensures request.Request? && TrimSpace(request.host) != "" ==>
              r == Success(SetPort(TrimSpace(request.host), listenPort))
    ensures r.Success? && PlainHost(TrimSpace(request.host)) ==>
              r.value == TrimSpace(request.host) + ":" + listenPort
  {
    match request
    case RequestError => Failure(HostHeaderUnreadable)
    case Request(h) =>
      var host := TrimSpace(h);
      if host == "" then Failure(EmptyHostHeader)
      else Success(SetPort(host, listenPort))
  }

  /** The outcome of running the code as written, where a Go nil-pointer
      dereference aborts the goroutine (and with it the process). */
  datatype Outcome = Returned(result: Result<string, ResolveError>) | NilDereference

  /** HostHeaderDestination.GetAddr as written: `rq.Host` is read before `err`
      is examined, and http.ReadRequest returns a nil request with its error. */
  function HostHeaderGetAddrAsWritten(listenPort: string, request: HttpRequest): (r: Outcome)
    ensures request.RequestError? <==> r == NilDereference
    ensures r.Returned? ==> r.result == HostHeaderGetAddr(listenPort, request)
  {
    match request
    case RequestError => NilDereference
    case Request(h) =>
      var host := TrimSpace(h);
      if host == "" then Returned(Failure(EmptyHostHeader))
      else Returned(Success(SetPort(host, listenPort)))
  }

  /** The "failed to read host header" branch can never be reached as written:
      a request that does not parse faults first. */
  lemma HostHeaderErrorBranchUnreachable(listenPort: string, request: HttpRequest)
    ensures HostHeaderGetAddrAsWritten(listenPort, request) != Returned(Failure(HostHeaderUnreadable))
    ensures HostHeaderGetAddrAsWritten("80", RequestError) == NilDereference
  {
  }

  /** SNIDestination.GetAddr: the hook having run is checked before the name's
      emptiness, and the handshake's own error is discarded. */
  function SniGetAddr(listenPort: string, hello: ClientHello): (r: Result<string, ResolveError>)
    ensures hello.serverName.None? <==> r == Failure(SniUnreadable)
    ensures r == Failure(EmptySni) <==> hello.serverName.Some? && TrimSpace(hello.serverName.value) == ""
    ensures r.Success? ==> hello.serverName.Some? && TrimSpace(hello.serverName.value) != ""
    ensures hello.serverName.Some? && TrimSpace(hello.serverName.value) != "" ==>
              r == Success(SetPort(TrimSpace(hello.serverName.value), listenPort))
    ensures r.Success? && PlainHost(TrimSpace(hello.serverName.value)) ==>
              r.value == TrimSpace(hello.serverName.value) + ":" + listenPort
  {
    match hello.serverName
    case None => Failure(SniUnreadable)
    case Some(name) =>
      var host := TrimSpace(name);
      if host == "" then Failure(EmptySni)
      else Success(SetPort(host, listenPort))
  }

  /** The handshake's own error never influences the resolved address. */
  lemma SniIgnoresHandshakeError(listenPort: string, serverName: Option<string>)
    ensures SniGetAddr(listenPort, ClientHello(serverName, true)) == SniGetAddr(listenPort, ClientHello(serverName, false))
  {
  }

  /** Destination.GetAddr, dispatched on the route's variant. */
  function GetAddr(d: Destination, sniffed: Sniffed): (r: Result<string, ResolveError>)
    ensures d.Static? ==> r == Success(d.dest)
    ensures d.HostHeader? ==> r.Failure? ==> r.error == HostHeaderUnreadable || r.error == EmptyHostHeader
    ensures d.Sni? ==> r.Failure? ==> r.error == SniUnreadable || r.error == EmptySni
    ensures d.HostHeader? ==> r == HostHeaderGetAddr(d.listenPort, sniffed.request)
    ensures d.Sni? ==> r == SniGetAddr(d.listenPort, sniffed.hello)
  {
    match d
    case Static(dest) => StaticGetAddr(dest, sniffed)
    case HostHeader(port) => HostHeaderGetAddr(port, sniffed.request)
    case Sni(port) => SniGetAddr(port, sniffed.hello)
  }

  /** A resolved HTTP or TLS address with a plain host name splits back into
      that host and the listen port, so resolving it again changes nothing. */
  lemma ResolvedAddressStable(d: Destination, sniffed: Sniffed, otherPort: string)
    requires !d.Static? && PortText(d.listenPort)
    requires GetAddr(d, sniffed).Success?
    requires d.HostHeader? ==> NoBrackets(TrimSpace(sniffed.request.host))
    requires d.Sni? ==> NoBrackets(TrimSpace(sniffed.hello.serverName.value))
    ensures SetPort(GetAddr(d, sniffed).value, otherPort) == GetAddr(d, sniffed).value
  {
    var host := if d.HostHeader? then TrimSpace(sniffed.request.host) else TrimSpace(sniffed.hello.serverName.value);
    assert GetAddr(d, sniffed).value == SetPort(host, d.listenPort);
    SetPortIdempotent(host, d.listenPort, otherPort);
  }
}

=== FILE: gonet.dfy ===
/** Models of Go's `net.SplitHostPort` and `net.JoinHostPort`, the two
    library functions the repository's `setPort` is built from. */
module GoNet {
  import opened Wrappers

  /** The reasons `net.SplitHostPort` gives for refusing an address. */
  datatype AddrError =
    | MissingPort              // "missing port in address"
    | TooManyColons            // "too many colons in address"
    | MissingCloseBracket      // "missing ']' in address"
    | UnexpectedOpenBracket    // "unexpected '[' in address"
    | UnexpectedCloseBracket   // "unexpected ']' in address"

  /** A host that JoinHostPort can wrap and SplitHostPort can recover. */
  predicate NoBrackets(s: string) {
    '[' !in s && ']' !in s
  }

  /** A port that SplitHostPort can recover after the last colon. */
  predicate PortText(s: string) {
    NoBrackets(s) && ':' !in s
  }

  /** A host name with no colon and no bracket: neither function treats it specially. */
  predicate PlainHost(s: string) {
    PortText(s)
  }

  /** Index of the first `c` in `s`, or -1. */
  function IndexByte(s: string, c: char): (r: int)
    ensures -1 <= r < |s|
    ensures r == -1 <==> c !in s
    ensures r >= 0 ==> s[r] == c && forall j :: 0 <= j < r ==> s[j] != c
  {
    if s == [] then -1
    else if s[0] == c then 0
    else
      var k := IndexByte(s[1..], c);
      if k < 0 then -1 else k + 1
  }

  /** Index of the last `c` in `s`, or -1. */
  function LastIndexByte(s: string, c: char): (r: int)
    ensures -1 <= r < |s|
    ensures r == -1 <==> c !in s
    ensures r >= 0 ==> s[r] == c && forall j :: r < j < |s| ==> s[j] != c
  {
    if s == [] then -1
    else if s[|s| - 1] == c then |s| - 1
    else LastIndexByte(s[..|s| - 1], c)
  }

  /** A rune absent from a suffix of `s` is absent from every slice of that suffix. */
  lemma NotInSlice(s: string, c: char, lo: nat, a: nat, b: nat)
    requires lo <= a <= b <= |s| && c !in s[lo..]
    ensures c !in s[a..b]
  {
    forall x | a <= x < b ensures s[x] != c {
      assert s[x] == s[lo..][x - lo];
    }
  }

  /** net.JoinHostPort: a host with a colon is taken for an IPv6 literal and bracketed. */
  function JoinHostPort(host: string, port: string): (r: string)
    ensures ':' in host ==> |r| == |host| + |port| + 3 && r[..|host| + 2] == ['['] + host + [']']
    ensures ':' !in host ==> |r| == |host| + |port| + 1 && r[..|host|] == host
    ensures r[|r| - |port| - 1..] == [':'] + port
  {
    if ':' in host then "[" + host + "]:" + port else host + ":" + port
  }

  /** net.SplitHostPort: the port follows the last colon; a host that contains
      colons must be bracketed, and no other bracket may appear. */
  function SplitHostPort(hostport: string): (r: Result<(string, string), AddrError>)
    ensures ':' !in hostport ==> r == Failure(MissingPort)
    ensures r.Success? ==> NoBrackets(r.value.0) && PortText(r.value.1)
    ensures r.Success? ==> |r.value.1| < |hostport| && hostport[|hostport| - |r.value.1| - 1..] == [':'] + r.value.1
    ensures r.Success? ==> hostport == r.value.0 + [':'] + r.value.1
                           || hostport == ['['] + r.value.0 + [']', ':'] + r.value.1
  {
    var i := LastIndexByte(hostport, ':');
    if i < 0 then Failure(MissingPort)
    else
      ColonThenPort(hostport, i);
      if hostport[0] == '[' then SplitBracketedAt(hostport, i) else SplitPlainAt(hostport, i)
  }

  /** The text after the colon at `i`, with that colon, is the end of `s`. */
  lemma ColonThenPort(s: string, i: nat)
    requires i < |s| && s[i] == ':'
    ensures s[|s| - |s[i + 1..]| - 1..] == [':'] + s[i + 1..]
  {
  }

  /** SplitHostPort of "[host]:port", the last colon being at `i`. */
  function SplitBracketedAt(hostport: string, i: nat): (r: Result<(string, string), AddrError>)
    requires i < |hostport| && hostport[0] == '[' && hostport[i] == ':' && ':' !in hostport[i + 1..]
    ensures r.Success? ==> NoBrackets(r.value.0) && PortText(r.value.1)
    ensures r.Success? ==> r.value.1 == hostport[i + 1..]
    ensures r.Success? ==> hostport == ['['] + r.value.0 + [']', ':'] + r.value.1
  {
    var end := IndexByte(hostport, ']');
    if end < 0 then Failure(MissingCloseBracket)
    else if end + 1 == |hostport| then Failure(MissingPort)
    else if end + 1 != i then
      (if hostport[end + 1] == ':' then Failure(TooManyColons) else Failure(MissingPort))
    else if '[' in hostport[1..] then Failure(UnexpectedOpenBracket)
    else if ']' in hostport[end + 1..] then Failure(UnexpectedCloseBracket)
    else
      NotInSlice(hostport, '[', 1, 1, end);
      NotInSlice(hostport, '[', 1, i + 1, |hostport|);
      NotInSlice(hostport, ']', end + 1, i + 1, |hostport|);
      assert ']' !in hostport[1..end];
      assert hostport == ['['] + hostport[1..end] + [']', ':'] + hostport[i + 1..];
      Success((hostport[1..end], hostport[i + 1..]))
  }

  /** SplitHostPort of "host:port" without a leading bracket, the last colon
      being at `i`. */
  function SplitPlainAt(hostport: string, i: nat): (r: Result<(string, string), AddrError>)
    requires i < |hostport| && hostport[i] == ':' && ':' !in hostport[i + 1..]
    ensures r.Success? ==> NoBrackets(r.value.0) && PortText(r.value.1)
    ensures r.Success? ==> r.value.1 == hostport[i + 1..]
    ensures r.Success? ==> hostport == r.value.0 + [':'] + r.value.1
  {
    var host := hostport[..i];
    if ':' in host then Failure(TooManyColons)
    else if '[' in hostport then Failure(UnexpectedOpenBracket)
    else if ']' in hostport then Failure(UnexpectedCloseBracket)
    else
      NotInSlice(hostport, '[', 0, i + 1, |hostport|);
      NotInSlice(hostport, ']', 0, i + 1, |hostport|);
      NotInSlice(hostport, '[', 0, 0, i);
      NotInSlice(hostport, ']', 0, 0, i);
      assert hostport == host + [':'] + hostport[i + 1..];
      Success((host, hostport[i + 1..]))
  }

  /** SplitHostPort undoes JoinHostPort, for every host without brackets and
      every port without colons or brackets, including IPv6 literals. */
  lemma SplitJoinRoundTrip(host: string, port: string)
    requires NoBrackets(host) && PortText(port)
    ensures SplitHostPort(JoinHostPort(host, port)) == Success((host, port))
  {
    var hp := JoinHostPort(host, port);
    if ':' in host {
      assert hp == ['['] + host + [']', ':'] + port;
      SplitBracketed(host, port);
    } else {
      assert hp == host + [':'] + port;
      var i := LastIndexByte(hp, ':');
      assert hp[|host|] == ':';
      assert forall j :: |host| < j < |hp| ==> hp[j] == port[j - |host| - 1];
      assert i == |host|;
      assert hp[..i] == host;
      assert hp[i + 1..] == port;
      if |host| > 0 {
        assert hp[0] == host[0];
      }
      assert '[' !in hp by {
        forall x | 0 <= x < |hp| ensures hp[x] != '[' {
          if x < |host| { assert hp[x] == host[x]; }
        }
      }
      assert ']' !in hp by {
        forall x | 0 <= x < |hp| ensures hp[x] != ']' {
          if x < |host| { assert hp[x] == host[x]; }
        }
      }
    }
  }

  /** The bracketed form "[host]:port" splits into host and port whether or not
      the host holds a colon. */
  lemma SplitBracketed(host: string, port: string)
    requires NoBrackets(host) && PortText(port)
    ensures SplitHostPort(['['] + host + [']', ':'] + port) == Success((host, port))
  {
    var hp := ['['] + host + [']', ':'] + port;
    var n := |host|;
    assert hp[n + 2..] == [':'] + port;
    assert hp[1..n + 1] == host;
    assert hp[1..] == host + [']', ':'] + port;
    assert LastIndexByte(hp, ':') == n + 2 by {
      forall j | n + 2 < j < |hp| ensures hp[j] != ':' {
        assert hp[j] == port[j - n - 3];
      }
      LastIndexAt(hp, ':', n + 2);
    }
    assert IndexByte(hp, ']') == n + 1 by {
      forall j | 0 <= j < n + 1 ensures hp[j] != ']' {
        if j > 0 { assert hp[j] == host[j - 1]; }
      }
      IndexAt(hp, ']', n + 1);
    }
    assert '[' !in hp[1..];
    assert ']' !in hp[n + 2..];
    assert hp[n + 3..] == port;
  }

  lemma LastIndexAt(s: string, c: char, k: nat)
    requires k < |s| && s[k] == c && forall j :: k < j < |s| ==> s[j] != c
    ensures LastIndexByte(s, c) == k
  {
  }

  lemma IndexAt(s: string, c: char, k: nat)
    requires k < |s| && s[k] == c && forall j :: 0 <= j < k ==> s[j] != c
    ensures IndexByte(s, c) == k
  {
  }

  /** An address that is not bracketed but holds two colons, such as a bare IPv6
      literal, is refused with "too many colons". */
  lemma UnbracketedColons(hostport: string, a: nat, b: nat)
    requires a < b < |hostport| && hostport[a] == ':' && hostport[b] == ':'
    requires hostport[0] != '['
    ensures SplitHostPort(hostport) == Failure(TooManyColons)
  {
    var i := LastIndexByte(hostport, ':');
    assert a < i;
    assert hostport[..i][a] == ':';
  }
}

=== FILE: gostrings.dfy ===
/** Models of the two functions of Go's `strings` package that the forwarder
    relies on: `TrimSpace` (with `unicode.IsSpace`) and `ToLower`. */
module GoStrings {

  /** unicode.IsSpace: the Latin-1 spaces and the Unicode White_Space runes. */
  predicate IsSpace(c: char) {
    c == ' ' || c == '\t' || c == '\n' || c == '\U{0B}' || c == '\U{0C}' || c == '\r'
    || c == '\U{85}' || c == '\U{A0}' || c == '\U{1680}'
    || ('\U{2000}' <= c <= '\U{200A}')
    || c == '\U{2028}' || c == '\U{2029}' || c == '\U{202F}' || c == '\U{205F}' || c == '\U{3000}'
  }

  predicate AllSpace(s: string) {
    forall i :: 0 <= i < |s| ==> IsSpace(s[i])
  }

  /** strings.TrimSpace: `s` without its leading and trailing white space. */
  function TrimSpace(s: string): (r: string)
    ensures |r| <= |s|
    ensures r == [] || (!IsSpace(r[0]) && !IsSpace(r[|r| - 1]))
    ensures r == [] <==> AllSpace(s)
  {
    if s != [] && IsSpace(s[0]) then TrimSpace(s[1..])
    else if s != [] && IsSpace(s[|s| - 1]) then TrimSpace(s[..|s| - 1])
    else s
  }

  /** `r` is `s` with white space cut off its edges: the slice of `s` from `i`
      with only white space before and after it. */
  ghost predicate CutAt(s: string, r: string, i: int) {
    && 0 <= i <= |s| - |r|
    && r == s[i..i + |r|]
    && (forall k :: 0 <= k < i ==> IsSpace(s[k]))
    && (forall k :: i + |r| <= k < |s| ==> IsSpace(s[k]))
  }

  ghost predicate CutEdges(s: string, r: string) {
    exists i :: CutAt(s, r, i)
  }

  /** TrimSpace cuts white space off the edges and nothing else. With
      TrimSpace's own contract (no white space left at either edge) this fixes
      the result. */
  lemma {:induction false} TrimSpaceCutsEdges(s: string)
    ensures CutEdges(s, TrimSpace(s))
    decreases |s|
  {
    var r := TrimSpace(s);
    if s != [] && IsSpace(s[0]) {
      assert r == TrimSpace(s[1..]);
      TrimSpaceCutsEdges(s[1..]);
      var i :| CutAt(s[1..], r, i);
      CutLeading(s, r, i);
    } else if s != [] && IsSpace(s[|s| - 1]) {
      assert r == TrimSpace(s[..|s| - 1]);
      TrimSpaceCutsEdges(s[..|s| - 1]);
      var i :| CutAt(s[..|s| - 1], r, i);
      CutTrailing(s, r, i);
    } else {
      assert CutAt(s, r, 0);
    }
  }

  lemma CutLeading(s: string, r: string, i: int)
    requires s != [] && IsSpace(s[0]) && CutAt(s[1..], r, i)
    ensures CutAt(s, r, i + 1)
  {
    var t := s[1..];
    assert s[i + 1..i + 1 + |r|] == t[i..i + |r|];
    forall k | 0 <= k < i + 1 ensures IsSpace(s[k]) {
      if k > 0 { assert s[k] == t[k - 1]; }
    }
    forall k | i + 1 + |r| <= k < |s| ensures IsSpace(s[k]) {
      assert s[k] == t[k - 1];
    }
  }

  lemma CutTrailing(s: string, r: string, i: int)
    requires s != [] && IsSpace(s[|s| - 1]) && CutAt(s[..|s| - 1], r, i)
    ensures CutAt(s, r, i)
  {
    var t := s[..|s| - 1];
    assert s[i..i + |r|] == t[i..i + |r|];
    forall k | 0 <= k < i ensures IsSpace(s[k]) {
      assert s[k] == t[k];
    }
    forall k | i + |r| <= k < |s| ensures IsSpace(s[k]) {
      if k < |s| - 1 { assert s[k] == t[k]; }
    }
  }

  /** Text without white space at either edge is left as it is. */
  lemma TrimSpaceOfTrimmed(s: string)
    requires s == [] || (!IsSpace(s[0]) && !IsSpace(s[|s| - 1]))
    ensures TrimSpace(s) == s
  {
  }

  /** Trimming twice trims nothing more. */
  lemma TrimSpaceIdempotent(s: string)
    ensures TrimSpace(TrimSpace(s)) == TrimSpace(s)
  {
    TrimSpaceOfTrimmed(TrimSpace(s));
  }

  /** unicode.ToLower restricted to ASCII: 'A'..'Z' become 'a'..'z'. */
  function LowerChar(c: char): (r: char)
    ensures 'A' <= c <= 'Z' ==> 'a' <= r <= 'z' && r as int - c as int == 32
    ensures !('A' <= c <= 'Z') ==> r == c
  {
    if 'A' <= c <= 'Z' then (c as int + 32) as char else c
  }

  /** strings.ToLower on the ASCII letters; every other rune is kept. */
  function ToLower(s: string): (r: string)
    ensures |r| == |s|
    ensures forall i :: 0 <= i < |s| ==> r[i] == LowerChar(s[i])
  {
    seq(|s|, i requires 0 <= i < |s| => LowerChar(s[i]))
  }

  /** Text without upper-case ASCII letters is its own lower-case form. */
  lemma ToLowerOfLowerCase(s: string)
    requires forall i :: 0 <= i < |s| ==> !('A' <= s[i] <= 'Z')
    ensures ToLower(s) == s
  {
  }

  /** Lowering case and trimming white space commute: lowering never makes
      a rune white space or stops it from being one. */
  lemma {:induction false} ToLowerTrimSpaceCommute(s: string)
    ensures ToLower(TrimSpace(s)) == TrimSpace(ToLower(s))
    decreases |s|
  {
    var l := ToLower(s);
    if s != [] && IsSpace(s[0]) {
      assert l[0] == s[0];
      assert l[1..] == ToLower(s[1..]);
      ToLowerTrimSpaceCommute(s[1..]);
    } else if s != [] && IsSpace(s[|s| - 1]) {
      assert !IsSpace(l[0]);
      assert l[|s| - 1] == s[|s| - 1];
      assert l[..|s| - 1] == ToLower(s[..|s| - 1]);
      ToLowerTrimSpaceCommute(s[..|s| - 1]);
    } else if s != [] {
      assert !IsSpace(l[0]) && !IsSpace(l[|s| - 1]);
    }
  }
}

=== FILE: netconn.dfy ===
/** A TCP connection as the forwarder sees it (Go's *net.TCPConn), and io.Copy
    between two of them. The peer's side is a fixed script: the bytes it has yet
    to deliver and how that stream ends. The local side is what has been written
    to the peer and whether the write side or the whole connection is shut. */
module NetConn {
  import opened Wrappers

  newtype byte = b: int | 0 <= b < 256

  /** The errors the forwarder can meet on a connection. */
  datatype IoError =
    | EOF          // io.EOF: the peer finished sending
    | ClosedPipe   // io.ErrClosedPipe
    | NetClosing   // net.ErrClosed: use of closed network connection
    | BrokenPipe   // writing after the local write side was shut
    | ConnReset    // the peer reset the connection

  /** The size of the buffer io.Copy allocates. */
  const CopyBufferSize: nat := 32 * 1024

  class Conn {
    /** Bytes the peer has sent that have not been read yet, and what a read
        reports once they are used up (EOF, or a reset). */
    var incoming: seq<byte>
    var end: IoError
    /** Bytes accepted by Write, in order. */
    var written: seq<byte>
    var peerReset: bool
    var writeShut: bool
    var closed: bool
    /** How many times Close has been called on this connection. */
    ghost var closeCalls: nat

    predicate CanWrite()
      reads this
    {
      !closed && !writeShut && !peerReset
    }

    /** The error a write reports when the connection cannot take it. */
    function WriteError(): IoError
      reads this
    {
      if closed then NetClosing else if writeShut then BrokenPipe else ConnReset
    }

    /** The error reported by a read into a buffer of `capacity` bytes that
        delivered `n` bytes. */
    function ReadError(capacity: nat, n: nat): Option<IoError>
      reads this
    {
      if closed then Some(NetClosing) else if n > 0 || capacity == 0 then None else Some(end)
    }

    /** Read fills a prefix of `p` with the next bytes of the stream. The network
        may deliver fewer bytes than `p` holds, but at least one while any are
        pending; once the stream is drained the read reports how it ended. */
    method Read(p: array<byte>) returns (n: nat, err: Option<IoError>)
      modifies this`incoming, p
      ensures n <= p.Length && n <= |old(incoming)|
      ensures p[..n] == old(incoming)[..n] && incoming == old(incoming)[n..]
      ensures !closed && p.Length > 0 && old(incoming) != [] ==> n > 0
      ensures closed ==> n == 0
      ensures err == ReadError(p.Length, n)
    {
      if closed {
        return 0, Some(NetClosing);
      }
      n := if p.Length < |incoming| then p.Length else |incoming|;
      forall i | 0 <= i < n {
        p[i] := incoming[i];
      }
      incoming := incoming[n..];
      err := ReadError(p.Length, n);
    }

    /** Write hands all of `data` to the peer, or none of it. */
    method Write(data: seq<byte>) returns (n: nat, err: Option<IoError>)
      modifies this`written
      ensures err.None? <==> CanWrite()
      ensures CanWrite() ==> n == |data| && written == old(written) + data
      ensures !CanWrite() ==> n == 0 && written == old(written) && err == Some(WriteError())
    {
      if !CanWrite() {
        return 0, Some(WriteError());
      }
      written := written + data;
      n, err := |data|, None;
    }

    /** CloseWrite shuts the write side; the peer then reads EOF. */
    method CloseWrite() returns (err: Option<IoError>)
      modifies this`writeShut
      ensures err == (if closed then Some(NetClosing) else None)
      ensures writeShut == (old(writeShut) || !closed)
    {
      if closed {
        return Some(NetClosing);
      }
      writeShut := true;
      err := None;
    }

    /** Close shuts the connection; closing it again reports an error. */
    method Close() returns (err: Option<IoError>)
      modifies this`closed, this`closeCalls
      ensures closed && closeCalls == old(closeCalls) + 1
      ensures err == (if old(closed) then Some(NetClosing) else None)
    {
      err := if closed then Some(NetClosing) else None;
      closed := true;
      closeCalls := closeCalls + 1;
    }
  }

  /** The error io.Copy reports when the source ends: none for EOF. */
  function EndError(e: IoError): (r: Option<IoError>)
    ensures r.None? <==> e == EOF
    ensures e != EOF ==> r == Some(e)
  {
    if e == EOF then None else Some(e)
  }

  /** io.Copy(dst, src): read chunks of up to 32 KiB from `src` and write each to
      `dst` until the source ends or a write fails. `dst` receives the first
      `written` bytes of what `src` still had to deliver: all of them when `dst`
      accepts writes, none when it does not. */
  method Copy(dst: Conn, src: Conn) returns (written: nat, err: Option<IoError>)
    requires dst != src
    modifies dst`written, src`incoming
    ensures written <= |old(src.incoming)| - |src.incoming|
    ensures src.incoming == old(src.incoming)[|old(src.incoming)| - |src.incoming|..]
    ensures dst.written == old(dst.written) + old(src.incoming)[..written]
    ensures src.closed ==> err == Some(NetClosing) && src.incoming == old(src.incoming) && written == 0
    ensures !src.closed && dst.CanWrite() ==>
              src.incoming == [] && written == |old(src.incoming)| && err == EndError(src.end)
    ensures !src.closed && !dst.CanWrite() && old(src.incoming) != [] ==>
              written == 0 && err == Some(dst.WriteError())
    ensures !src.closed && old(src.incoming) == [] ==> written == 0 && err == EndError(src.end)
  {
    var buf := new byte[CopyBufferSize];
    written := 0;
    ghost var consumed: seq<byte> := [];
    while true
      invariant old(src.incoming) == consumed + src.incoming
      invariant written == |consumed|
      invariant dst.written == old(dst.written) + consumed
      invariant !dst.CanWrite() || src.closed ==> consumed == []
      invariant buf.Length == CopyBufferSize
      invariant old(src.incoming) == [] ==> consumed == [] && src.incoming == []
      decreases |src.incoming|
    {
      ghost var pending := src.incoming;
      var nr, er := src.Read(buf);
      Split(pending, nr);
      if nr > 0 {
        var nw, ew := dst.Write(buf[..nr]);
        if ew.Some? {
          err := ew;
          break;
        }
        Regroup(consumed, buf[..nr], src.incoming);
        consumed := consumed + buf[..nr];
        written := written + nw;
      }
      if er.Some? {
        err := EndError(er.value);
        break;
      }
    }
    Prefix(consumed, src.incoming);
  }

  lemma Split(s: seq<byte>, n: nat)
    requires n <= |s|
    ensures s == s[..n] + s[n..]
  {
  }

  lemma Prefix(a: seq<byte>, b: seq<byte>)
    ensures (a + b)[..|a|] == a
  {
  }

  lemma Regroup(a: seq<byte>, b: seq<byte>, c: seq<byte>)
    ensures a + (b + c) == (a + b) + c
  {
  }
}

=== FILE: proxy.dfy ===
/** The per-connection lifecycle of the forwarder (main.go): resolve the
    destination while recording what the client sent, dial it through the SOCKS
    server, replay the recorded bytes and relay both directions, and close the
    client connection exactly once, either when the proxy timeout fires or when
    the handler returns. */
module Proxy {
  import opened Wrappers
  import opened NetConn
  import opened Roconn
  import opened Destination
  import opened Config

  /** What creating the SOCKS5 dialer and dialing through it produced. */
  datatype DialOutcome = DialerFailed | DialFailed | Connected

  datatype ProxyError =
    | SocksServerFailed    // "failed to connect to SOCKS server"
    | SocksDialFailed      // "failed to connect through SOCKS server"

  /** io.Copy from a bytes.Buffer: its WriteTo hands every unread byte to one
      Write, and writes nothing when the buffer is empty. */
  method CopyBuffer(dst: Conn, data: seq<byte>) returns (n: nat, err: Option<IoError>)
    modifies dst`written
    ensures err.None? <==> data == [] || dst.CanWrite()
    ensures dst.written == old(dst.written) + (if err.None? then data else [])
    ensures n == |dst.written| - |old(dst.written)|
    ensures err.Some? ==> err == Some(dst.WriteError())
  {
    n, err := 0, None;
    if |data| > 0 {
      n, err := dst.Write(data);
    }
  }

  /** The bytes the client -> upstream direction sends, in order. */
  function Replayed(prefix: Option<seq<byte>>, live: seq<byte>): (r: seq<byte>)
    ensures prefix.None? ==> r == live
    ensures prefix.Some? ==> |r| == |prefix.value| + |live| && r[..|prefix.value|] == prefix.value && r[|prefix.value|..] == live
  {
    (if prefix.Some? then prefix.value else []) + live
  }

  /** Client -> upstream: the recorded prefix first, then the live client bytes;
      a failed prefix write ends the direction before any client byte is read.
      The upstream write side is shut however the direction ends. */
  method ClientToUpstream(client: Conn, upstream: Conn, prefix: Option<seq<byte>>)
    requires client != upstream
    modifies client`incoming, upstream`written, upstream`writeShut
    ensures upstream.writeShut == (old(upstream.writeShut) || !upstream.closed)
    ensures |old(upstream.written)| <= |upstream.written|
    ensures upstream.written[..|old(upstream.written)|] == old(upstream.written)
    ensures upstream.written[|old(upstream.written)|..] <= Replayed(prefix, old(client.incoming))
    ensures prefix.Some? && prefix.value != [] && !old(upstream.CanWrite()) ==>
              client.incoming == old(client.incoming) && upstream.written == old(upstream.written)
    ensures old(upstream.CanWrite()) && !client.closed ==>
              client.incoming == [] && upstream.written == old(upstream.written) + Replayed(prefix, old(client.incoming))
  {
    if prefix.Some? {
      var n, err := CopyBuffer(upstream, prefix.value);
      if err.Some? {
        var closeErr := upstream.CloseWrite();
        return;
      }
    }
    ghost var afterPrefix := upstream.written;
    var n, err := Copy(upstream, client);
    var closeErr := upstream.CloseWrite();
    assert upstream.written == afterPrefix + old(client.incoming)[..n];
  }

  /** Upstream -> client: the upstream's bytes, then the client write side is shut
      however the copy ended. */
  method UpstreamToClient(client: Conn, upstream: Conn)
    requires client != upstream
    modifies upstream`incoming, client`written, client`writeShut
    ensures client.writeShut == (old(client.writeShut) || !client.closed)
    ensures |old(client.written)| <= |client.written|
    ensures client.written[..|old(client.written)|] == old(client.written)
    ensures client.written[|old(client.written)|..] <= old(upstream.incoming)
    ensures old(client.CanWrite()) && !upstream.closed ==>
              upstream.incoming == [] && client.written == old(client.written) + old(upstream.incoming)
  {
    var n, err := Copy(client, upstream);
    var closeErr := client.CloseWrite();
  }

  /** doProxying: nothing is relayed unless the dial succeeds; then both
      directions run to completion, the upstream connection is closed, and no
      error is reported whatever the copies met. */
  method DoProxying(client: Conn, route: RouteConfig, destAddr: string, prefix: Option<seq<byte>>,
                    dial: DialOutcome, upstream: Conn) returns (err: Option<ProxyError>)
    requires client != upstream
    modifies client`incoming, client`written, client`writeShut
    modifies upstream`incoming, upstream`written, upstream`writeShut, upstream`closed, upstream`closeCalls
    ensures dial == DialerFailed ==> err == Some(SocksServerFailed) && unchanged(client, upstream)
    ensures dial == DialFailed ==> err == Some(SocksDialFailed) && unchanged(client, upstream)
    ensures dial == Connected ==> err.None? && upstream.closed && upstream.closeCalls == old(upstream.closeCalls) + 1
    ensures dial == Connected ==> client.writeShut == (old(client.writeShut) || !client.closed)
    ensures dial == Connected ==> upstream.writeShut == (old(upstream.writeShut) || !old(upstream.closed))
    ensures dial == Connected && prefix.Some? && prefix.value != [] && !old(upstream.CanWrite()) ==>
              client.incoming == old(client.incoming) && upstream.written == old(upstream.written)
    ensures dial == Connected ==>
              (|old(upstream.written)| <= |upstream.written| && upstream.written[..|old(upstream.written)|] == old(upstream.written))
    ensures dial == Connected && old(upstream.CanWrite()) && !client.closed ==>
              upstream.written == old(upstream.written) + Replayed(prefix, old(client.incoming))
    ensures dial == Connected && old(client.CanWrite()) && !old(upstream.closed) ==>
              client.written == old(client.written) + old(upstream.incoming)
  {
    if dial == DialerFailed {
      return Some(SocksServerFailed);
    }
    if dial == DialFailed {
      return Some(SocksDialFailed);
    }
    ClientToUpstream(client, upstream, prefix);
    UpstreamToClient(client, upstream);
    var closeErr := upstream.Close();
    err := None;
  }

  /** The proxy timer: absent, armed, already fired, or stopped. */
  datatype TimerState = NoTimer | Pending | Fired | Stopped

  /** The timer's expiry, and the handler's deferred function running on return. */
  datatype Event = TimerExpires | HandlerReturns

  /** A timer is armed only when a proxy timeout is configured. */
  function ArmTimer(proxyTimeout: int): (t: TimerState)
    ensures t.NoTimer? <==> proxyTimeout == 0
    ensures t.NoTimer? || t.Pending?
  {
    if proxyTimeout == 0 then NoTimer else Pending
  }

  /** One event: the timer closes the connection if it is still armed; the
      deferred function closes it when there is no timer or when Stop reports
      that it stopped an armed timer. The result is the next state and whether
      the event closes the client connection. */
  function Step(t: TimerState, e: Event): (r: (TimerState, bool))
  {
    match e
    case TimerExpires => if t.Pending? then (Fired, true) else (t, false)
    case HandlerReturns =>
      if t.NoTimer? then (NoTimer, true)
      else if t.Pending? then (Stopped, true)
      else (t, false)
  }

  /** The state after a sequence of events and how many closes it made. */
  function Run(t: TimerState, events: seq<Event>): (TimerState, nat)
    decreases |events|
  {
    if events == [] then (t, 0)
    else
      var next := Step(t, events[0]);
      var rest := Run(next.0, events[1..]);
      (rest.0, rest.1 + if next.1 then 1 else 0)
  }

  predicate OnlyExpiries(events: seq<Event>)
  {
    forall i :: 0 <= i < |events| ==> events[i] == TimerExpires
  }

  /** Expiries alone close at most once: only an armed timer fires. */
  lemma {:induction false} RunExpiries(t: TimerState, events: seq<Event>)
    requires OnlyExpiries(events)
    ensures Run(t, events) == if t.Pending? && events != [] then (Fired, 1) else (t, 0)
    decreases |events|
  {
    if events != [] {
      RunExpiries(Step(t, events[0]).0, events[1..]);
    }
  }

  lemma {:induction false} RunAppend(t: TimerState, a: seq<Event>, b: seq<Event>)
    ensures Run(t, a + b) == (Run(Run(t, a).0, b).0, Run(t, a).1 + Run(Run(t, a).0, b).1)
    decreases |a|
  {
    if a == [] {
      assert a + b == b;
    } else {
      assert (a + b)[0] == a[0] && (a + b)[1..] == a[1..] + b;
      RunAppend(Step(t, a[0]).0, a[1..], b);
    }
  }

  /** The client connection is closed exactly once, whether the timer expires
      before the handler returns, after it, or never, and whether or not a
      timer was armed. */
  lemma ClosedExactlyOnce(proxyTimeout: int, before: seq<Event>, after: seq<Event>)
    requires OnlyExpiries(before) && OnlyExpiries(after)
    ensures Run(ArmTimer(proxyTimeout), before + [HandlerReturns] + after).1 == 1
  {
    var t := ArmTimer(proxyTimeout);
    RunAppend(t, before + [HandlerReturns], after);
    RunAppend(t, before, [HandlerReturns]);
    RunExpiries(t, before);
    var mid := Run(t, before + [HandlerReturns]).0;
    RunExpiries(mid, after);
  }

  /** What the protocol parser does to the connection while it looks for the
      destination: a series of reads, with the buffer sizes it uses, stopping at
      the first error. */
  method ParserReads(ro: RoConn, sizes: seq<nat>)
    requires ro.Valid()
    modifies ro`buf, ro`chunks, ro.conn`incoming
    ensures ro.Valid()
  {
    for i := 0 to |sizes|
      invariant ro.Valid()
    {
      var p := new byte[sizes[i]];
      var n, err := ro.Read(p);
      if err.Some? {
        return;
      }
    }
  }

  /** route.Destination.GetAddr(roConn): a static destination answers without
      reading; the sniffing ones read through the wrapper and then decide on
      what the parser reported. */
  method Resolve(d: Destination, ro: RoConn, sizes: seq<nat>, sniffed: Sniffed)
      returns (r: Result<string, ResolveError>)
    requires ro.Valid()
    modifies ro`buf, ro`chunks, ro.conn`incoming
    ensures ro.Valid() && r == GetAddr(d, sniffed)
    ensures d.Static? ==> unchanged(ro, ro.conn)
  {
    if !d.Static? {
      ParserReads(ro, sizes);
    }
    r := GetAddr(d, sniffed);
  }

  /** handleConnection. The timer, when the route has a proxy timeout, may expire
      once forwarding is over; the deferred function then closes the client
      connection unless the timer already did. Forwarding starts only after the
      destination resolves, and the recorded bytes are replayed first, so the
      upstream receives exactly what the client sent. */
  method HandleConnection(route: RouteConfig, conn: Conn, sizes: seq<nat>, sniffed: Sniffed,
                          dial: DialOutcome, upstream: Conn, timerExpires: bool)
    requires conn != upstream
    modifies conn`incoming, conn`written, conn`writeShut, conn`closed, conn`closeCalls
    modifies upstream`incoming, upstream`written, upstream`writeShut, upstream`closed, upstream`closeCalls
    ensures conn.closed && conn.closeCalls == old(conn.closeCalls) + 1
    ensures GetAddr(route.destination, sniffed).Failure? || dial != Connected ==>
              unchanged(upstream) && conn.written == old(conn.written) && conn.writeShut == old(conn.writeShut)
    ensures GetAddr(route.destination, sniffed).Success? && dial == Connected && old(upstream.CanWrite()) && !old(conn.closed) ==>
              upstream.written == old(upstream.written) + old(conn.incoming)
    ensures GetAddr(route.destination, sniffed).Success? && dial == Connected && old(conn.CanWrite()) && !old(upstream.closed) ==>
              conn.written == old(conn.written) + old(upstream.incoming)
    ensures GetAddr(route.destination, sniffed).Success? && dial == Connected ==>
              conn.writeShut == (old(conn.writeShut) || !old(conn.closed)) &&
              upstream.writeShut == (old(upstream.writeShut) || !old(upstream.closed)) &&
              upstream.closed && upstream.closeCalls == old(upstream.closeCalls) + 1
  {
    var timer := ArmTimer(route.proxyTimeout);
    var roConn := new RoConn(conn);
    var dest := Resolve(route.destination, roConn, sizes, sniffed);
    if dest.Success? {
      var buf: Option<seq<byte>> := None;
      if |roConn.buf| != 0 {
        buf := Some(roConn.buf);
      }
      assert Replayed(buf, conn.incoming) == old(conn.incoming);
      var err := DoProxying(conn, route, dest.value, buf, dial, upstream);
    }
    ExpireThenReturn(conn, timer, timerExpires);
  }

  /** The end of handleConnection: the timer, if armed, may expire, and then the
      deferred function runs. Between them they close the connection once. */
  method ExpireThenReturn(conn: Conn, timer: TimerState, timerExpires: bool)
    requires timer.NoTimer? || timer.Pending?
    modifies conn`closed, conn`closeCalls
    ensures conn.closed && conn.closeCalls == old(conn.closeCalls) + 1
  {
    var t := timer;
    if timerExpires {
      var fired := Step(t, TimerExpires);
      t := fired.0;
      if fired.1 {
        var closeErr := conn.Close();
      }
    }
    var deferred := Step(t, HandlerReturns);
    if deferred.1 {
      var closeErr := conn.Close();
    }
  }
}

=== FILE: roconn.dfy ===
/** Package roconn: a read-only view of a connection. Every byte read through it
    is also kept in Buf, so the client's first bytes can be inspected by protocol
    parsers and forwarded afterwards; writes, Close and the deadline setters never
    reach the wrapped connection. */
module Roconn {
  import opened Wrappers
  import opened NetConn

  /** The chunks joined end to end, in order. */
  function Concat(chunks: seq<seq<byte>>): seq<byte>
  {
    if chunks == [] then [] else Concat(chunks[..|chunks| - 1]) + chunks[|chunks| - 1]
  }

  class RoConn {
    const conn: Conn
    /** Buf: the bytes read so far. */
    var buf: seq<byte>
    /** The chunks the reads returned, in order, and the wrapped stream as it
        was when the wrapper was made. */
    ghost var chunks: seq<seq<byte>>
    ghost const origin: seq<byte>

    /** Buf is every non-empty chunk read, in order, with nothing missing or
        repeated, and Buf followed by the unread bytes is the original stream. */
    ghost predicate Valid()
      reads this, conn
    {
      && buf == Concat(chunks)
      && (forall i :: 0 <= i < |chunks| ==> chunks[i] != [])
      && origin == buf + conn.incoming
    }

    constructor (conn: Conn)
      ensures this.conn == conn && buf == [] && chunks == [] && origin == conn.incoming
      ensures Valid()
    {
      this.conn := conn;
      buf := [];
      chunks := [];
      origin := conn.incoming;
    }

    /** Read passes the wrapped connection's read through unchanged (same count,
        same error) and appends the bytes it delivered to Buf. */
    method Read(p: array<byte>) returns (n: nat, err: Option<IoError>)
      requires Valid()
      modifies this`buf, this`chunks, conn`incoming, p
      ensures Valid()
      ensures n <= p.Length && n <= |old(conn.incoming)| && p[..n] == old(conn.incoming)[..n] && conn.incoming == old(conn.incoming)[n..]
      ensures !conn.closed && p.Length > 0 && old(conn.incoming) != [] ==> n > 0
      ensures err == conn.ReadError(p.Length, n)
      ensures buf == old(buf) + p[..n]
      ensures chunks == if n > 0 then old(chunks) + [p[..n]] else old(chunks)
    {
      n, err := conn.Read(p);
      if n > 0 {
        buf := buf + p[..n];
        chunks := chunks + [p[..n]];
        assert old(conn.incoming) == p[..n] + conn.incoming;
      }
    }

    /** Write never reaches the connection. */
    method Write(p: seq<byte>) returns (n: nat, err: Option<IoError>)
      ensures n == 0 && err == Some(ClosedPipe)
    {
      n, err := 0, Some(ClosedPipe);
    }

    /** Close leaves the wrapped connection open. */
    method Close() returns (err: Option<IoError>)
      ensures err.None?
    {
      err := None;
    }

    /** The deadline setters accept any time and do nothing. */
    method SetDeadline(t: int) returns (err: Option<IoError>)
      ensures err.None?
    {
      err := None;
    }

    method SetReadDeadline(t: int) returns (err: Option<IoError>)
      ensures err.None?
    {
      err := None;
    }

    method SetWriteDeadline(t: int) returns (err: Option<IoError>)
      ensures err.None?
    {
      err := None;
    }
  }
}

=== FILE: wrappers.dfy ===
/** Option and Result, the failure-carrying values used throughout the model
    in place of Go's `nil` pointers and `(value, error)` pairs. */
module Wrappers {

  datatype Option<+T> = None | Some(value: T)

  datatype Result<+R, +E> = Success(value: R) | Failure(error: E)
}
